=== FILE: README.md ===
# SQL Script Executor — a Dafny model of its batch splitter and transaction loop

The SQL Script Executor is a console program. It reads the `.sql` files of a `Scripts`
directory in name order and splits each file into batches on `GO` lines. It then runs every
batch of every file on one SQL Server connection, inside one transaction. The run is meant
to be all or nothing: the first failing script stops the run and the transaction is rolled
back; otherwise it is committed. The exit code says whether every script succeeded. The
all-or-nothing results below hold for scripts that leave transaction control to the program
(see Left out).

This project models three parts of `Program.cs`:

- **`SplitSqlBatches`** (`splitter.dfy`, module `BatchSplitter`). It is modelled exactly as
  `Regex.Split(script, @"^\s*GO\s*$", Multiline | IgnoreCase)` followed by dropping blank
  pieces.
  - `MatchAt` is one match attempt of the regex at one position. The leading `\s*` can only
    stop where the whitespace ends. The trailing `\s*` is greedy and gives back characters
    until `$` holds: before a line feed, or at the end of the text.
  - `Scan` is the engine's left-to-right search. Each search resumes where the previous
    match ended.
  - `Pieces` is the text between matches. `NonBlank` is the `Where` filter.
  - Whitespace is the set shared by the regex class `\s` and `Char.IsWhiteSpace` (module
    `Text`).
  - The character-level properties are in terms of lines: `OnGoLine` means a character's
    line trims to `GO` in any casing. `Kept` is the non-whitespace text that is not on such a
    line.
- **`ExecuteScripts`** (`executor.dfy`, module `ScriptExecutor`). The database is abstract.
  - A state type `S` stands for the database state.
  - The splitter is a parameter of type `Splitter`: any function that returns no empty or
    whitespace-only batch. `RunProgram` passes `SplitSqlBatches`, whose contract gives exactly
    that. The blank check in the batch loop (`Program.cs:167`) is still modelled, in
    `RunBatches`.
  - A `Server` answers each batch with a new working state or an error. It also says whether
    opening the connection, commit and rollback succeed.
  - `Db` holds the committed state plus the working state of an open transaction.
    `BeginTx` snapshots the committed state, `CommitTx` publishes the working state and
    `RollbackTx` drops it.
  - The meaning of a run is the fold `ApplyScripts` (via `Apply` for the batches of one
    script).
  - The method returns the `ExecutionResult` counters, the final database and the trace of
    requests sent (`Begin`, `ExecBatch`, `Commit`, `Rollback`).
- **`Main`'s exit code** (`program.dfy`, module `ProgramMain`). The environment checks
  become booleans, and `RunProgram` returns the exit code and the database.

The file read, the database and the environment are parameters:
- a script whose file cannot be read is `Script(name, None)`;
- the server's answers are the `Server` value;
- the configuration and directory checks are the `Environment` value.

`splitter_examples.dfy` works the rule out on small scripts:
- `go`, `  Go  ` and `GO\r` lines split;
- `GO;`, `GOTO`, `GO 5` and `SELECT 'GO HOME'` do not;
- blank lines next to a GO line are absorbed into the separator;
- a CRLF GO line splits;
- a script holding only `GO` has no batch.

## Model

| member | source | states |
|---|---|---|
| Text.GoTextIff | Program.cs:216 | A line trims to `GO` (any casing) exactly when it is whitespace, then G and O, then whitespace: the shape the pattern `^\s*GO\s*$` accepts between line boundaries. |
| BatchSplitter.MatchAt | Program.cs:216 | An attempt at p succeeds only where p starts a line and G, O sit between whitespace runs and a line end. It takes the longest such match: no separator starting at p ends later. |
| BatchSplitter.Scan | Program.cs:216 | The matches of the search are in order, non-overlapping, inside the text, and each is the regex's match at its start. |
| BatchSplitter.ScanFindsEveryMatch | Program.cs:216 | The search misses no place where the regex matches: every such position lies inside a match it found. |
| BatchSplitter.SeparatorIffGoLine | Program.cs:215-216 | A non-whitespace character is consumed by a separator exactly when its line trims to GO in any casing. `GO` that shares its line with other text never splits. |
| BatchSplitter.MatchedTextIsGo | Program.cs:216 | Every separator's text trims to GO. |
| BatchSplitter.SplitReassembles | Program.cs:216 | Regex.Split loses nothing but the separators: putting them back between the pieces gives the script exactly, and each separator trims to GO. |
| BatchSplitter.Pieces | Program.cs:216 | One piece more than there are matches. |
| BatchSplitter.PiecesBetweenMatches | Program.cs:216 | Each piece is the text between two consecutive matches. The first piece starts at the start of the script, and the last ends at its end. |
| BatchSplitter.RegexSplit | Program.cs:216 | `Regex.Split` returns one piece more than the regex has matches in the script. |
| BatchSplitter.NonBlank | Program.cs:217 | The filter keeps no empty or whitespace-only piece and drops no other piece. Everything it keeps is one of the pieces. |
| BatchSplitter.NonBlankSubsequence | Program.cs:217 | The filter keeps a subsequence of the pieces, in order and with repetitions. The k-th result is the piece at the k-th of a strictly increasing list of positions. Those positions are exactly the positions of the non-empty, non-whitespace pieces. |
| BatchSplitter.NonBlankOfNonBlank | Program.cs:217 | Filtering batches that are already non-blank changes nothing, so the blank check at line 167 skips nothing the splitter returns. |
| BatchSplitter.SplitSqlBatches | Program.cs:213-221 | No batch is empty or whitespace-only. Every batch is a piece of the split, and every non-blank piece of the split is a batch. |
| BatchSplitter.SplitKeepsPieceOrder | Program.cs:213-221 | The batches are the non-blank pieces of the split in their order, repetitions included. |
| BatchSplitter.SplitKeepsContent | Program.cs:216-218 | The batches keep the script's content in order, up to whitespace: their non-whitespace characters are exactly the script's non-whitespace characters that are not on a GO line. |
| BatchSplitter.NoGoLineSingleBatch | Program.cs:216-218 | A script with some content and no GO line is one batch: the script itself, unchanged. |
| SplitterExamples.GoLineExamples | Program.cs:216 | `go`, `  Go  ` and `GO\r` lines are separators. |
| SplitterExamples.NotGoLineExamples | Program.cs:216 | `GO;`, `GOTO`, `GO 5` and `SELECT 'GO HOME'` lines are not separators. |
| SplitterExamples.SplitExample | Program.cs:216-218 | `A\nGO\nB` splits into `A\n` and `\nB`. |
| SplitterExamples.BlankLinesAbsorbedExample | Program.cs:216-218 | In `A\n\nGO\n\nB` the blank line before GO and the line feed after it go into the separator, giving `A\n` and `\nB`. |
| SplitterExamples.CrLfExample | Program.cs:216-218 | A CRLF GO line splits: `A\r\nGO\r\nB` gives `A\r\n` and `\nB`. |
| SplitterExamples.OnlyGoExample | Program.cs:216-218 | A script holding only `GO` has no batches. |
| ScriptExecutor.BeginTx | Program.cs:149 | Beginning opens a transaction. Whatever the batches do to the working state, a successful rollback gives back the database as it was before the transaction. Committing a transaction in which nothing ran leaves the database as it was. |
| ScriptExecutor.CommitTx | Program.cs:190 | A successful commit publishes the working state. The commit closes the transaction exactly when it succeeds. After a failed commit, a successful rollback (Program.cs:198) leaves the state the transaction began from committed and no transaction open. That a failed commit publishes nothing is an assumption of the model (see Left out). |
| ScriptExecutor.RollbackTx | Program.cs:198 | A rollback never changes the committed state. It closes the transaction exactly when it succeeds. |
| ScriptExecutor.BatchesOf | Program.cs:162-163 | A script has batches exactly when its file can be read, and none of them is empty or whitespace-only. |
| ScriptExecutor.FailingBatch | Program.cs:165-173 | When the batches of a script fail, the batch found is the first failing one: every batch before it succeeded and it failed. |
| ScriptExecutor.FailsAtUnique | Program.cs:165-173 | At most one batch is the first to fail. |
| ScriptExecutor.BatchFailureIff | Program.cs:165-173 | A script's batches fail exactly when some batch is the first to fail. |
| ScriptExecutor.ApplyAppend | Program.cs:165-173 | Running batches a then b on the working state is running a, then b from where a left off. |
| ScriptExecutor.ApplyScriptsFlattens | Program.cs:153-173 | When every file can be read, running the scripts one after another is running all their batches as one sequence, in file order and then split order. |
| ScriptExecutor.ScriptsFailOnward | Program.cs:179-185 | Once a prefix of the scripts fails, every longer prefix fails: nothing after a failure can undo it. |
| ScriptExecutor.FailingScript | Program.cs:153-186 | When the run fails, the script found is the first failing one: every script before it succeeded and it failed. |
| ScriptExecutor.ScriptFailureIff | Program.cs:153-186 | The run fails exactly when some script is the first to fail. |
| ScriptExecutor.FirstFailureUnique | Program.cs:153-186 | At most one script is the first to fail. |
| ScriptExecutor.RunBatches | Program.cs:165-173 | Runs the non-blank batches in order and stops at the first that fails. It reports success exactly when every batch succeeds. It returns the state after the last successful batch, and sends the batches up to and including the failing one. |
| ScriptExecutor.RunScript | Program.cs:160-185 | A script fails when its file cannot be read, sending nothing, or when one of its batches fails. Otherwise its batches, as split, all ran. |
| ScriptExecutor.RunScripts | Program.cs:153-187 | Runs the scripts in order and stops at the first failing one. If all succeed: Successful equals the number of scripts, Failed is 0, and every batch of every script was sent. If script k is the first to fail: Successful is k, Failed is 1, and nothing after its failing batch was sent. |
| ScriptExecutor.ExecuteScripts | Program.cs:137-211 | An open failure yields no result. Otherwise Total equals the number of files, Failed ≤ 1 and Successful + Failed ≤ Total, and Commit is sent exactly when every script succeeds. If all succeed: Begin, every batch, Commit; the database holds the final state, or the snapshot again after a failed commit and a successful rollback. If script k fails first: Successful k, Failed 1, no Commit, Rollback last; the committed state is unchanged, and the transaction is closed exactly when the rollback succeeds. |
| ProgramMain.RunProgram | Program.cs:18-119 | The exit code is 0 or 1. It is 0 exactly when the settings load, the connection string is non-blank and the probe connects, and then either the missing `Scripts` directory is created, or the directory is listed and either holds no script or the connection opens and every script succeeds. A nonzero exit leaves the committed state unchanged. When no script runs, the database is untouched and no transaction is open. A failed commit after all scripts succeed still exits 0, with nothing committed. |

## Left out

- Console output, colours and the header: `WriteColoredLine` and every `Console` call are presentation only.
- Configuration loading is reduced to two inputs: whether `appsettings.json` loads, and the connection string (absent or present).
- `Directory.CreateDirectory` and `Directory.GetFiles` are library I/O. Whether each succeeds is an `Environment` boolean: a failure of either (`Program.cs:53`, `Program.cs:59`) reaches the handler at `Program.cs:113`, and Main exits 1. The files they would create or list are not modelled. The script list, already in the culture-sensitive `OrderBy` order of the paths, is an input.
- `TestConnection`, `OpenAsync` and `BeginTransaction` talk to the network. They are booleans: the environment's `connects` and the server's `opens`. A failure to open for the run is modelled as `OpenFailed`, which `Main` turns into exit code 1.
- `MaskConnectionString` is display only.
- The stopwatches and `TotalTime` are wall-clock values stored as doubles. `ExecutionResult` has no time field here.
- `CommandTimeout = 300` is not modelled separately: a timed-out batch is one more `Err` answer from the server.
- async/await is not modelled, because the program awaits every call in sequence.
- SQL semantics and SqlClient internals are the abstract `exec` function. A failing batch is taken to leave the working state as it was before that batch; any partial effect of a failed batch is outside the model.
- `exec` can change only the working state, so a batch never commits or rolls back by itself. The all-or-nothing results assume exactly that: a committed state unchanged on failure (`ExecuteScripts`, `RunProgram`), and a commit exactly on success. A script that runs its own `COMMIT TRANSACTION` or `ROLLBACK` is outside the model. For such a script the server keeps its work, later batches or `CommitAsync` throw, and the rollback at `Program.cs:198` fails silently (`Program.cs:201-204`) while line 109 reports that everything was rolled back.
- Disposal of the transaction and the connection is not modelled. The `using` declarations at `Program.cs:146` and `Program.cs:149` dispose both when `ExecuteScripts` returns, and disposing a pending transaction rolls it back. The model stops before that: after a failed rollback, the `Db` it returns still has the transaction open. That is the state just before disposal.
- Strings are sequences of Unicode scalar values rather than UTF-16 code units. Every character the splitter inspects is in the Basic Multilingual Plane, so no result depends on this.
- Counters are unbounded naturals. They never exceed the number of files, so a 32-bit `int` cannot overflow for any list the program can be given.
- A commit that fails is taken to publish nothing. After it, a successful rollback leaves the snapshot committed and no transaction open; a server that partly applies a commit before reporting the failure is outside the model.
- Error messages, the stack trace and the wording of the summary are not modelled; only the exit code and the database are.

## Commit failure and the exit code

One behaviour of the code differs from what the program's own summary suggests.
- If every script succeeds and `CommitAsync` then throws, the outer handler at
  `Program.cs:193-205` rolls back.
- The counters still say every script succeeded, so `Main` returns 0 (`Program.cs:100-104`)
  and prints that all scripts executed successfully.
- The program's own messages contradict each other on this path. After a failed commit the
  outer handler prints that the transaction was rolled back (`Program.cs:199`), or that
  the rollback failed (`Program.cs:203`). `Main` then prints "All scripts executed
  successfully!" (`Program.cs:103`) and exits 0, although nothing was committed. The
  failure line at `Program.cs:109`, which says "All changes have been rolled back", is not
  printed. The model follows the code.
- `ProgramMain.RunProgram` states the case directly: under those conditions the exit code is
  0 and the committed state is the one the run started from.

=== FILE: common.dfy ===
/** Small shared datatypes. */
module Common {

  /** A value that may be absent: a file that could not be read, a match attempt that failed,
      a batch sequence that stopped on an error. */
  datatype Option<T> = None | Some(value: T)
}

=== FILE: executor.dfy ===
/** ExecuteScripts: every script runs, in order, inside one transaction on one connection;
    the first failing script ends the loop and the transaction is rolled back, otherwise it is
    committed. The database is abstract: a state type S, and a server that answers each batch
    with a new working state or an error. The batch splitter is a parameter `split`, so every
    property here holds for any splitter that returns no blank batch; the program runs it
    with SplitSqlBatches. */
module ScriptExecutor {
  import opened Common
  import opened Text
  import opened BatchSplitter

  /** The server's answer to one batch: the new working state, or an error (a SQL error or
      the 300-second command timeout). */
  datatype ExecOutcome<S> = Ok(next: S) | Err

  /** The database server as the executor sees it. */
  datatype Server<!S> = Server(
    opens: bool,                           // OpenAsync and BeginTransaction succeed
    exec: (S, string) -> ExecOutcome<S>,   // ExecuteNonQueryAsync on one batch
    commitSucceeds: bool,                  // CommitAsync returns normally
    rollbackSucceeds: bool)                // RollbackAsync returns normally

  /** A batch splitter that never returns an empty or whitespace-only batch, as
      SplitSqlBatches guarantees. */
  type Splitter = f: string -> seq<string> | forall t, b :: b in f(t) ==> !IsBlank(b)
    witness (t: string) => []

  /** A script file: its name and its text, or None when reading the file throws. */
  datatype Script = Script(name: string, content: Option<string>)

  /** The run's counters (the elapsed time is not modelled). */
  datatype ExecutionResult = ExecutionResult(totalScripts: nat, successfulScripts: nat, failedScripts: nat)

  /** A request sent to the server. ExecBatch carries the index of the script it belongs to. */
  datatype Action = Begin | ExecBatch(script: nat, batch: string) | Commit | Rollback

  /** The database: its committed state, and the working state of the open transaction if
      there is one. */
  datatype Db<S> = Db(committed: S, open: Option<S>)

  /** A run either fails to open its connection (the exception leaves ExecuteScripts) or
      returns its counters, leaving the database in some state after sending some actions. */
  datatype Run<S> = OpenFailed | Finished(result: ExecutionResult, db: Db<S>, actions: seq<Action>)

  /* ---------------------------------------------------------------------------------------
     Transactions.
     --------------------------------------------------------------------------------------- */

  /** BeginTransaction: the working state starts as a snapshot of the committed state.
      Whatever the batches then do to the working state, a successful rollback gives back the
      database as it was before the transaction; committing without running anything
      changes nothing either. */
  function BeginTx<S(!new)>(db: Db<S>): (r: Db<S>)
    requires db.open.None?
    ensures r.open.Some?
    ensures forall w :: RollbackTx(Db(r.committed, Some(w)), true) == db
    ensures CommitTx(r, true) == db
  {
    Db(db.committed, Some(db.committed))
  }

  /** CommitAsync: on success the working state becomes the committed state; on failure
      nothing is published and the transaction stays open, so the rollback the outer handler
      then attempts returns the database to the state the transaction began from. */
  function CommitTx<S>(db: Db<S>, succeeds: bool): (r: Db<S>)
    requires db.open.Some?
    ensures succeeds ==> r.committed == db.open.value
    ensures succeeds <==> r.open.None?
    ensures !succeeds ==> RollbackTx(r, true) == Db(db.committed, None)
  {
    if succeeds then Db(db.open.value, None) else db
  }

  /** RollbackAsync: on success the working state is dropped, so the database is back to the
      state the transaction began from; on failure the transaction stays open. The committed
      state never changes. */
  function RollbackTx<S>(db: Db<S>, succeeds: bool): (r: Db<S>)
    requires db.open.Some?
    ensures r.committed == db.committed
    ensures succeeds <==> r.open.None?
  {
    if succeeds then Db(db.committed, None) else db
  }

  /* ---------------------------------------------------------------------------------------
     What a run means: cumulative effects, and where it fails.
     --------------------------------------------------------------------------------------- */

  /** The cumulative effect of running the batches in order from s; None once one fails. */
  function Apply<S>(exec: (S, string) -> ExecOutcome<S>, s: S, batches: seq<string>): Option<S>
    decreases |batches|
  {
    if batches == [] then Some(s)
    else match Apply(exec, s, batches[..|batches| - 1])
      case None => None
      case Some(w) =>
        match exec(w, batches[|batches| - 1])
        case Ok(next) => Some(next)
        case Err => None
  }

  /** The batches of a script, or None when its file cannot be read. */
  function BatchesOf(split: Splitter, sc: Script): (r: Option<seq<string>>)
    ensures r.Some? <==> sc.content.Some?
    ensures r.Some? ==> forall b :: b in r.value ==> !IsBlank(b)
  {
    match sc.content
    case None => None
    case Some(text) => Some(split(text))
  }

  /** The cumulative effect of running every batch of every script, in order; None once a
      script cannot be read or one of its batches fails. */
  function ApplyScripts<S>(exec: (S, string) -> ExecOutcome<S>, split: Splitter, s: S, scripts: seq<Script>): Option<S>
    decreases |scripts|
  {
    if scripts == [] then Some(s)
    else match ApplyScripts(exec, split, s, scripts[..|scripts| - 1])
      case None => None
      case Some(w) =>
        match BatchesOf(split, scripts[|scripts| - 1])
        case None => None
        case Some(batches) => Apply(exec, w, batches)
  }

  /** Running one more batch after batches that left the working state w. */
  lemma ApplySnoc<S>(exec: (S, string) -> ExecOutcome<S>, s: S, batches: seq<string>, b: string, w: S)
    requires Apply(exec, s, batches) == Some(w)
    ensures Apply(exec, s, batches + [b]) == match exec(w, b) { case Ok(next) => Some(next) case Err => None }
  {
    assert (batches + [b])[..|batches|] == batches;
  }

  /** Batch j is the first of the batches to fail when they run from s. */
  predicate FailsAt<S>(exec: (S, string) -> ExecOutcome<S>, s: S, batches: seq<string>, j: nat) {
    && j < |batches|
    && Apply(exec, s, batches[..j]).Some?
    && exec(Apply(exec, s, batches[..j]).value, batches[j]).Err?
  }

  /** Script k is the first of the scripts to fail when they run from s. */
  predicate FirstFailure<S>(exec: (S, string) -> ExecOutcome<S>, split: Splitter, s: S, scripts: seq<Script>, k: nat) {
    && k < |scripts|
    && ApplyScripts(exec, split, s, scripts[..k]).Some?
    && ApplyScripts(exec, split, s, scripts[..k + 1]).None?
  }

  /** Searching from j, where batches[..j] has run, for the first failing batch. */
  function FailingBatchFrom<S>(exec: (S, string) -> ExecOutcome<S>, s: S, batches: seq<string>, j: nat): (r: nat)
    requires j <= |batches|
    requires Apply(exec, s, batches[..j]).Some? && Apply(exec, s, batches).None?
    ensures j <= r && FailsAt(exec, s, batches, r)
    decreases |batches| - j
  {
    assert batches[..|batches|] == batches;
    assert batches[..j + 1][..j] == batches[..j];
    if exec(Apply(exec, s, batches[..j]).value, batches[j]).Err? then j
    else FailingBatchFrom(exec, s, batches, j + 1)
  }

  /** The index of the batch that fails, when some batch does. */
  function FailingBatch<S>(exec: (S, string) -> ExecOutcome<S>, s: S, batches: seq<string>): (r: nat)
    requires Apply(exec, s, batches).None?
    ensures FailsAt(exec, s, batches, r)
  {
    assert batches[..0] == [];
    FailingBatchFrom(exec, s, batches, 0)
  }

  /** The batches of one script as ExecBatch actions tagged with the script's index. */
  function Tag(index: nat, batches: seq<string>): (r: seq<Action>)
    ensures |r| == |batches|
    ensures forall n :: 0 <= n < |r| ==> r[n] == ExecBatch(index, batches[n])
  {
    seq(|batches|, n requires 0 <= n < |batches| => ExecBatch(index, batches[n]))
  }

  /** Tagging one more batch adds one action at the end. */
  lemma TagSnoc(index: nat, batches: seq<string>, b: string)
    ensures Tag(index, batches + [b]) == Tag(index, batches) + [ExecBatch(index, b)]
  {
    assert (batches + [b])[|batches|] == b;
  }

  /** The ExecBatch actions of every batch of every script, in order. */
  function Planned(split: Splitter, scripts: seq<Script>): (r: seq<Action>)
    ensures forall a :: a in r ==> a.ExecBatch? && a.script < |scripts|
    decreases |scripts|
  {
    if scripts == [] then []
    else
      var n := |scripts| - 1;
      Planned(split, scripts[..n]) + match BatchesOf(split, scripts[n]) { case None => [] case Some(bs) => Tag(n, bs) }
  }

  /** The ExecBatch actions sent for script k when it is the first to fail: its batches up to
      and including the failing one, or none when its file cannot be read. */
  function FailedScriptActions<S>(exec: (S, string) -> ExecOutcome<S>, split: Splitter, s: S, scripts: seq<Script>, k: nat): (r: seq<Action>)
    requires FirstFailure(exec, split, s, scripts, k)
    ensures forall a :: a in r ==> a.ExecBatch? && a.script == k
  {
    assert scripts[..k + 1][..k] == scripts[..k];
    var before := ApplyScripts(exec, split, s, scripts[..k]).value;
    match BatchesOf(split, scripts[k])
    case None => []
    case Some(bs) => Tag(k, bs[..FailingBatch(exec, before, bs) + 1])
  }

  /* ---------------------------------------------------------------------------------------
     Properties of the reference semantics.
     --------------------------------------------------------------------------------------- */

  /** After a failing batch, no longer prefix of the batches has an effect. */
  lemma {:induction false} ApplyFailsOnward<S>(exec: (S, string) -> ExecOutcome<S>, s: S, batches: seq<string>, j: nat, m: nat)
    requires FailsAt(exec, s, batches, j) && j < m <= |batches|
    ensures Apply(exec, s, batches[..m]).None?
    decreases m
  {
    assert batches[..m][..m - 1] == batches[..m - 1];
    if m > j + 1 {
      ApplyFailsOnward(exec, s, batches, j, m - 1);
    }
  }

  /** At most one batch is the first to fail. */
  lemma FailsAtUnique<S>(exec: (S, string) -> ExecOutcome<S>, s: S, batches: seq<string>, j1: nat, j2: nat)
    requires FailsAt(exec, s, batches, j1) && FailsAt(exec, s, batches, j2)
    ensures j1 == j2
  {
    if j1 < j2 {
      ApplyFailsOnward(exec, s, batches, j1, j2);
    } else if j2 < j1 {
      ApplyFailsOnward(exec, s, batches, j2, j1);
    }
  }

  /** The batches have no effect exactly when one of them is the first to fail. */
  lemma BatchFailureIff<S>(exec: (S, string) -> ExecOutcome<S>, s: S, batches: seq<string>)
    ensures Apply(exec, s, batches).None? <==> exists j :: FailsAt(exec, s, batches, j)
  {
    assert batches[..|batches|] == batches;
    if Apply(exec, s, batches).None? {
      var j := FailingBatch(exec, s, batches);
      assert FailsAt(exec, s, batches, j);
    }
    forall j: nat | FailsAt(exec, s, batches, j)
      ensures Apply(exec, s, batches).None?
    {
      ApplyFailsOnward(exec, s, batches, j, |batches|);
    }
  }

  /** Running a + b is running a, then b from where a left off. */
  lemma {:induction false} ApplyAppend<S>(exec: (S, string) -> ExecOutcome<S>, s: S, a: seq<string>, b: seq<string>)
    ensures Apply(exec, s, a + b)
            == match Apply(exec, s, a) { case None => None case Some(w) => Apply(exec, w, b) }
    decreases |b|
  {
    if b == [] {
      assert a + b == a;
    } else {
      var front := b[..|b| - 1];
      assert (a + b)[..|a + b| - 1] == a + front;
      assert (a + b)[|a + b| - 1] == b[|b| - 1];
      ApplyAppend(exec, s, a, front);
    }
  }

  /** All the batches of all the scripts, in order; None when some file cannot be read. */
  function AllBatches(split: Splitter, scripts: seq<Script>): Option<seq<string>>
    decreases |scripts|
  {
    if scripts == [] then Some([])
    else match AllBatches(split, scripts[..|scripts| - 1])
      case None => None
      case Some(front) =>
        match BatchesOf(split, scripts[|scripts| - 1])
        case None => None
        case Some(batches) => Some(front + batches)
  }

  /** When every file can be read, running the scripts one after the other is running all
      their batches as one sequence: script boundaries play no part in the effect. */
  lemma {:induction false} ApplyScriptsFlattens<S>(exec: (S, string) -> ExecOutcome<S>, split: Splitter, s: S, scripts: seq<Script>)
    requires AllBatches(split, scripts).Some?
    ensures ApplyScripts(exec, split, s, scripts) == Apply(exec, s, AllBatches(split, scripts).value)
    decreases |scripts|
  {
    if scripts != [] {
      var front := scripts[..|scripts| - 1];
      ApplyScriptsFlattens(exec, split, s, front);
      ApplyAppend(exec, s, AllBatches(split, front).value, BatchesOf(split, scripts[|scripts| - 1]).value);
    }
  }

  /** Once a prefix of the scripts fails, every longer prefix fails. */
  lemma {:induction false} ScriptsFailOnward<S>(exec: (S, string) -> ExecOutcome<S>, split: Splitter, s: S, scripts: seq<Script>, k: nat, m: nat)
    requires k <= m <= |scripts|
    requires ApplyScripts(exec, split, s, scripts[..k]).None?
    ensures ApplyScripts(exec, split, s, scripts[..m]).None?
    decreases m - k
  {
    if k < m {
      assert scripts[..k + 1][..k] == scripts[..k];
      ScriptsFailOnward(exec, split, s, scripts, k + 1, m);
    }
  }

  /** Searching from k, where scripts[..k] has run, for the first failing script. */
  function FailingScriptFrom<S>(exec: (S, string) -> ExecOutcome<S>, split: Splitter, s: S, scripts: seq<Script>, k: nat): (r: nat)
    requires k <= |scripts|
    requires ApplyScripts(exec, split, s, scripts[..k]).Some? && ApplyScripts(exec, split, s, scripts).None?
    ensures k <= r && FirstFailure(exec, split, s, scripts, r)
    decreases |scripts| - k
  {
    assert scripts[..|scripts|] == scripts;
    if ApplyScripts(exec, split, s, scripts[..k + 1]).None? then k
    else FailingScriptFrom(exec, split, s, scripts, k + 1)
  }

  /** The index of the first failing script, when some script fails. */
  function FailingScript<S>(exec: (S, string) -> ExecOutcome<S>, split: Splitter, s: S, scripts: seq<Script>): (r: nat)
    requires ApplyScripts(exec, split, s, scripts).None?
    ensures FirstFailure(exec, split, s, scripts, r)
  {
    assert scripts[..0] == [];
    FailingScriptFrom(exec, split, s, scripts, 0)
  }

  /** The scripts fail exactly when one of them is the first to fail. */
  lemma ScriptFailureIff<S>(exec: (S, string) -> ExecOutcome<S>, split: Splitter, s: S, scripts: seq<Script>)
    ensures ApplyScripts(exec, split, s, scripts).None? <==> exists k :: FirstFailure(exec, split, s, scripts, k)
  {
    assert scripts[..|scripts|] == scripts;
    assert scripts[..0] == [];
    if ApplyScripts(exec, split, s, scripts).None? {
      var k := FailingScriptFrom(exec, split, s, scripts, 0);
      assert FirstFailure(exec, split, s, scripts, k);
    }
    forall k: nat | FirstFailure(exec, split, s, scripts, k)
      ensures ApplyScripts(exec, split, s, scripts).None?
    {
      ScriptsFailOnward(exec, split, s, scripts, k + 1, |scripts|);
    }
  }

  /** At most one script is the first to fail. */
  lemma FirstFailureUnique<S>(exec: (S, string) -> ExecOutcome<S>, split: Splitter, s: S, scripts: seq<Script>, k1: nat, k2: nat)
    requires FirstFailure(exec, split, s, scripts, k1) && FirstFailure(exec, split, s, scripts, k2)
    ensures k1 == k2
  {
    if k1 < k2 {
      ScriptsFailOnward(exec, split, s, scripts, k1 + 1, k2);
    } else if k2 < k1 {
      ScriptsFailOnward(exec, split, s, scripts, k2 + 1, k1);
    }
  }

  /* ---------------------------------------------------------------------------------------
     The script runner and the orchestrator.
     --------------------------------------------------------------------------------------- */

  /** The `foreach (var batch in batches)` loop of one script: skips blank batches, runs the
      others in order on the working state w and stops at the first that fails. Returns
      whether every batch succeeded, the working state after the last successful batch and
      the actions sent. */
  method RunBatches<S>(exec: (S, string) -> ExecOutcome<S>, w: S, batches: seq<string>, index: nat)
    returns (ok: bool, state: S, sent: seq<Action>)
    ensures ok <==> Apply(exec, w, NonBlank(batches)).Some?
    ensures ok ==> Apply(exec, w, NonBlank(batches)) == Some(state) && sent == Tag(index, NonBlank(batches))
    ensures !ok ==>
              var j := FailingBatch(exec, w, NonBlank(batches));
              Apply(exec, w, NonBlank(batches)[..j]) == Some(state)
              && sent == Tag(index, NonBlank(batches)[..j + 1])
  {
    ok, state, sent := true, w, [];
    var i := 0;
    ghost var done: seq<string> := [];
    while i < |batches|
      invariant 0 <= i <= |batches|
      invariant done == NonBlank(batches[..i])
      invariant Apply(exec, w, done) == Some(state)
      invariant sent == Tag(index, done)
    {
      NonBlankStep(batches, i);
      if IsBlank(batches[i]) {
        i := i + 1;
        continue;
      }
      ApplySnoc(exec, w, done, batches[i], state);
      TagSnoc(index, done, batches[i]);
      sent := sent + [ExecBatch(index, batches[i])];
      match exec(state, batches[i])
      case Ok(next) =>
        state := next;
        done := done + [batches[i]];
        i := i + 1;
      case Err =>
        FailingNonBlankBatch(exec, w, batches, i, state);
        ok := false;
        return;
    }
    assert batches[..i] == batches;
  }

  /** Filtering one more batch. */
  lemma NonBlankStep(batches: seq<string>, i: nat)
    requires i < |batches|
    ensures NonBlank(batches[..i + 1])
            == NonBlank(batches[..i]) + (if IsBlank(batches[i]) then [] else [batches[i]])
  {
    assert batches[..i + 1] == batches[..i] + [batches[i]];
    NonBlankAppend(batches[..i], [batches[i]]);
    assert [batches[i]][1..] == [];
  }

  /** A batch that fails after the non-blank batches before it succeeded is the first failing
      one among all the non-blank batches. */
  lemma FailingNonBlankBatch<S>(exec: (S, string) -> ExecOutcome<S>, w: S, batches: seq<string>, i: nat, state: S)
    requires i < |batches| && !IsBlank(batches[i])
    requires Apply(exec, w, NonBlank(batches[..i])) == Some(state) && exec(state, batches[i]).Err?
    ensures var all, done := NonBlank(batches), NonBlank(batches[..i]);
            && Apply(exec, w, all).None?
            && FailingBatch(exec, w, all) == |done|
            && all[..|done|] == done
            && all[..|done| + 1] == done + [batches[i]]
  {
    var all, done := NonBlank(batches), NonBlank(batches[..i]);
    NonBlankAround(batches, i);
    assert all[..|done|] == done;
    assert all[..|done| + 1] == done + [batches[i]];
    assert FailsAt(exec, w, all, |done|);
    assert Apply(exec, w, all).None? by {
      assert all[..|all|] == all;
      ApplyFailsOnward(exec, w, all, |done|, |all|);
    }
    FailsAtUnique(exec, w, all, |done|, FailingBatch(exec, w, all));
  }

  /** Running one more script after scripts[..i] left the working state before. */
  lemma ScriptStep<S>(exec: (S, string) -> ExecOutcome<S>, split: Splitter, s: S, scripts: seq<Script>, i: nat, before: S)
    requires i < |scripts| && ApplyScripts(exec, split, s, scripts[..i]) == Some(before)
    ensures ApplyScripts(exec, split, s, scripts[..i + 1])
            == match BatchesOf(split, scripts[i]) { case None => None case Some(bs) => Apply(exec, before, bs) }
    ensures Planned(split, scripts[..i + 1])
            == Planned(split, scripts[..i]) + match BatchesOf(split, scripts[i]) { case None => [] case Some(bs) => Tag(i, bs) }
    ensures ApplyScripts(exec, split, s, scripts[..i + 1]).None? ==>
              && FirstFailure(exec, split, s, scripts, i)
              && FailedScriptActions(exec, split, s, scripts, i)
                 == match BatchesOf(split, scripts[i]) {
                      case None => []
                      case Some(bs) => Tag(i, bs[..FailingBatch(exec, before, bs) + 1]) }
  {
    assert scripts[..i + 1][..i] == scripts[..i];
  }

  /** The body of the per-script try block: reads the script, splits it into batches with
      split and runs them from the working state w. It fails when the file cannot be read or
      a batch fails. */
  method RunScript<S>(exec: (S, string) -> ExecOutcome<S>, split: Splitter, w: S, sc: Script, index: nat)
    returns (ok: bool, state: S, sent: seq<Action>)
    ensures ok <==> BatchesOf(split, sc).Some? && Apply(exec, w, BatchesOf(split, sc).value).Some?
    ensures ok ==> Apply(exec, w, BatchesOf(split, sc).value) == Some(state) && sent == Tag(index, BatchesOf(split, sc).value)
    ensures !ok ==>
              sent == match BatchesOf(split, sc) {
                        case None => []
                        case Some(bs) => Tag(index, bs[..FailingBatch(exec, w, bs) + 1]) }
  {
    match sc.content
    case None =>
      // Reading the file throws inside the per-script try: the script fails.
      return false, w, [];
    case Some(text) =>
      var batches := split(text);
      assert NonBlank(batches) == batches by {
        NonBlankOfNonBlank(batches);
      }
      ok, state, sent := RunBatches(exec, w, batches, index);
  }

  /** The per-script loop of ExecuteScripts, from the snapshot initial: reads, splits and runs
      each script in order, counting it, and stops at the first that fails. Returns the
      working state of the transaction, the counters and the ExecBatch actions sent. */
  method RunScripts<S>(exec: (S, string) -> ExecOutcome<S>, split: Splitter, initial: S, scripts: seq<Script>)
    returns (working: S, successful: nat, failed: nat, sent: seq<Action>)
    ensures forall a :: a in sent ==> a.ExecBatch?
    ensures ApplyScripts(exec, split, initial, scripts).Some? ==>
              && ApplyScripts(exec, split, initial, scripts) == Some(working)
              && successful == |scripts| && failed == 0
              && sent == Planned(split, scripts)
    ensures ApplyScripts(exec, split, initial, scripts).None? ==>
              var k := FailingScript(exec, split, initial, scripts);
              && successful == k && failed == 1
              && sent == Planned(split, scripts[..k]) + FailedScriptActions(exec, split, initial, scripts, k)
  {
    working, successful, failed, sent := initial, 0, 0, [];
    var i := 0;
    while i < |scripts|
      invariant 0 <= i <= |scripts|
      invariant ApplyScripts(exec, split, initial, scripts[..i]) == Some(working)
      invariant successful == i && failed == 0
      invariant sent == Planned(split, scripts[..i])
    {
      var ok, state, more := RunScript(exec, split, working, scripts[i], i);
      if !ok {
        // The failure is re-thrown out of the loop.
        assert && ApplyScripts(exec, split, initial, scripts).None?
               && FailingScript(exec, split, initial, scripts) == i
               && more == FailedScriptActions(exec, split, initial, scripts, i) by {
          ScriptStep(exec, split, initial, scripts, i, working);
          ScriptsFailOnward(exec, split, initial, scripts, i + 1, |scripts|);
          assert scripts[..|scripts|] == scripts;
          FirstFailureUnique(exec, split, initial, scripts, i, FailingScript(exec, split, initial, scripts));
        }
        sent := sent + more;
        working := state;
        failed := failed + 1;
        return;
      }
      assert && ApplyScripts(exec, split, initial, scripts[..i + 1]) == Some(state)
             && Planned(split, scripts[..i + 1]) == sent + more by {
        ScriptStep(exec, split, initial, scripts, i, working);
      }
      sent := sent + more;
      working := state;
      successful := successful + 1;
      i := i + 1;
    }
    assert scripts[..i] == scripts;
  }

  /** Between Begin and the end of the run only ExecBatch actions are sent, so Commit appears
      in a trace exactly when it is sent after them. */
  lemma CommitMarksSuccess(sent: seq<Action>)
    requires forall a :: a in sent ==> a.ExecBatch?
    ensures Commit in [Begin] + sent + [Commit]
    ensures Commit in [Begin] + sent + [Commit] + [Rollback]
    ensures Commit !in [Begin] + sent + [Rollback]
  {
    assert ([Begin] + sent + [Commit])[|sent| + 1] == Commit;
    assert ([Begin] + sent + [Commit] + [Rollback])[|sent| + 1] == Commit;
    forall i | 0 <= i < |sent| + 2
      ensures ([Begin] + sent + [Rollback])[i] != Commit
    {
      var trace := [Begin] + sent + [Rollback];
      if i == 0 {
        assert trace[i] == Begin;
      } else if i <= |sent| {
        assert trace[i] == sent[i - 1];
        assert sent[i - 1] in sent;
      } else {
        assert trace[i] == Rollback;
      }
    }
  }

  /** ExecuteScripts: opens the connection and begins the transaction, runs the scripts, then
      commits when every script succeeded and rolls back otherwise; a failed commit is followed
      by a rollback, and a failed rollback is swallowed. The database returned is the one at
      the end of the method body, before the `using` declarations dispose the transaction and
      the connection: a transaction still open there is the one a failed rollback left pending,
      which disposal then rolls back. */
  method ExecuteScripts<S(!new)>(server: Server<S>, split: Splitter, initial: S, scripts: seq<Script>) returns (run: Run<S>)
    ensures run.OpenFailed? <==> !server.opens
    ensures run.Finished? ==>
              && run.result.totalScripts == |scripts|
              && run.result.failedScripts <= 1
              && run.result.successfulScripts + run.result.failedScripts <= run.result.totalScripts
              && (Commit in run.actions <==> ApplyScripts(server.exec, split, initial, scripts).Some?)
    ensures run.Finished? && ApplyScripts(server.exec, split, initial, scripts).Some? ==>
              var final := ApplyScripts(server.exec, split, initial, scripts).value;
              && run.result.successfulScripts == |scripts|
              && run.result.failedScripts == 0
              && run.actions == [Begin] + Planned(split, scripts) + [Commit]
                                + (if server.commitSucceeds then [] else [Rollback])
              && run.db == (if server.commitSucceeds then Db(final, None)
                            else if server.rollbackSucceeds then Db(initial, None)
                            else Db(initial, Some(final)))
    ensures run.Finished? && ApplyScripts(server.exec, split, initial, scripts).None? ==>
              var k := FailingScript(server.exec, split, initial, scripts);
              && run.result.successfulScripts == k
              && run.result.failedScripts == 1
              && run.actions == [Begin] + Planned(split, scripts[..k])
                                + FailedScriptActions(server.exec, split, initial, scripts, k) + [Rollback]
              && run.db.committed == initial
              && (run.db.open.None? <==> server.rollbackSucceeds)
  {
    if !server.opens {
      return OpenFailed;
    }
    var db := BeginTx(Db(initial, None));
    var working, successful, failed, sent := RunScripts(server.exec, split, initial, scripts);
    db := Db(db.committed, Some(working));
    var actions := [Begin] + sent;
    CommitMarksSuccess(sent);
    if failed == 0 {
      assert ApplyScripts(server.exec, split, initial, scripts).Some?;
      actions := actions + [Commit];
      db := CommitTx(db, server.commitSucceeds);
      if !server.commitSucceeds {
        // The failed commit is caught by the outer handler, which attempts a rollback.
        actions := actions + [Rollback];
        db := RollbackTx(db, server.rollbackSucceeds);
      }
    } else {
      var k := FailingScript(server.exec, split, initial, scripts);
      assert [Begin] + sent == [Begin] + Planned(split, scripts[..k]) + FailedScriptActions(server.exec, split, initial, scripts, k);
      // The re-thrown script failure reaches the outer handler.
      actions := actions + [Rollback];
      db := RollbackTx(db, server.rollbackSucceeds);
    }
    run := Finished(ExecutionResult(|scripts|, successful, failed), db, actions);
  }
}

=== FILE: program.dfy ===
/** Main reduced to what decides its exit code and what it leaves in the database: the
    configuration and connection checks, the Scripts directory checks, ExecuteScripts, and the
    comparison of the counters. Everything Main prints is left out. */
module ProgramMain {
  import opened Common
  import opened Text
  import opened BatchSplitter
  import opened ScriptExecutor

  /** What Main finds in its environment before it runs any script. */
  datatype Environment = Environment(
    settingsLoad: bool,                  // appsettings.json exists and parses
    connectionString: Option<string>,    // GetConnectionString("SqlServer"), None when absent
    connects: bool,                      // TestConnection opens a connection
    scriptsDirectoryExists: bool,        // the Scripts directory is there
    createsScriptsDirectory: bool,       // Directory.CreateDirectory succeeds
    listsScripts: bool)                  // Directory.GetFiles succeeds

  /** Main gets as far as running the scripts: settings load, the connection string is
      present and not blank, and the test connection opens. */
  predicate Ready(env: Environment) {
    && env.settingsLoad
    && env.connectionString.Some? && !IsBlank(env.connectionString.value)
    && env.connects
  }

  /** Main: returns 1 when the settings cannot be loaded, the connection string is missing or
      blank, or the test connection fails; returns 0 without running anything when the
      Scripts directory is missing and gets created, or holds no .sql file; returns 1 when
      creating or listing the directory throws; otherwise runs the scripts, in the given
      order, and returns 0 exactly when every script succeeded, 1 when some script failed or
      the connection for the run could not be opened. */
  method RunProgram<S(!new)>(env: Environment, server: Server<S>, initial: S, scripts: seq<Script>)
    returns (exitCode: int, db: Db<S>)
    ensures exitCode == 0 || exitCode == 1
    ensures exitCode == 0 <==>
              Ready(env)
              && (if !env.scriptsDirectoryExists then env.createsScriptsDirectory
                  else env.listsScripts
                       && (|scripts| == 0
                           || (server.opens && ApplyScripts(server.exec, SplitSqlBatches, initial, scripts).Some?)))
    ensures db.committed == initial
            || (exitCode == 0 && server.commitSucceeds
                && ApplyScripts(server.exec, SplitSqlBatches, initial, scripts) == Some(db.committed))
    ensures exitCode == 1 ==> db.committed == initial
    ensures !(Ready(env) && env.scriptsDirectoryExists && env.listsScripts && |scripts| > 0 && server.opens) ==>
              db == Db(initial, None)
    ensures Ready(env) && env.scriptsDirectoryExists && env.listsScripts && |scripts| > 0 && server.opens
            && ApplyScripts(server.exec, SplitSqlBatches, initial, scripts).Some? ==>
              && exitCode == 0
              && db.committed == (if server.commitSucceeds then ApplyScripts(server.exec, SplitSqlBatches, initial, scripts).value
                                  else initial)
  {
    db := Db(initial, None);
    if !env.settingsLoad {
      // Building the configuration throws; the outer handler reports a fatal error.
      return 1, db;
    }
    if env.connectionString.None? || IsBlank(env.connectionString.value) {
      return 1, db;
    }
    if !env.connects {
      return 1, db;
    }
    if !env.scriptsDirectoryExists {
      // A failure to create the directory reaches the outer handler.
      return if env.createsScriptsDirectory then 0 else 1, db;
    }
    if !env.listsScripts {
      // So does a failure to list it.
      return 1, db;
    }
    if |scripts| == 0 {
      return 0, db;
    }
    var run := ExecuteScripts(server, SplitSqlBatches, initial, scripts);
    if run.OpenFailed? {
      // The exception from opening the connection reaches the outer handler.
      return 1, db;
    }
    db := run.db;
    if run.result.successfulScripts == run.result.totalScripts {
      exitCode := 0;
    } else {
      exitCode := 1;
    }
  }
}

=== FILE: splitter.dfy ===
/** SplitSqlBatches: `Regex.Split(script, @"^\s*GO\s*$", Multiline | IgnoreCase)` followed by
    dropping every empty or whitespace-only piece. The regex is modelled exactly: one match
    attempt (MatchAt), the left-to-right search for non-overlapping matches (Scan), the text
    between matches (Pieces) and the final filter (NonBlank). */
module BatchSplitter {
  import opened Common
  import opened Text

  /** The regex `^\s*GO\s*$` in multiline mode matches t[p..e] with its G at index g:
      p starts a line, G and O are surrounded by whitespace only (line feeds included),
      and e ends a line. */
  predicate SeparatorAt(t: string, p: nat, g: nat, e: nat) {
    && p <= g && g + 2 <= e <= |t|
    && (p == 0 || t[p - 1] == '\n')
    && AllWs(t, p, g) && IsG(t[g]) && IsO(t[g + 1]) && AllWs(t, g + 2, e)
    && (e == |t| || t[e] == '\n')
  }

  /** The last line feed in t[lo..hi], if any. */
  function LastLineFeed(t: string, lo: nat, hi: nat): (r: Option<nat>)
    requires lo <= hi <= |t|
    ensures r.Some? ==> lo <= r.value < hi && t[r.value] == '\n'
                        && forall j :: r.value < j < hi ==> t[j] != '\n'
    ensures r.None? ==> forall j :: lo <= j < hi ==> t[j] != '\n'
    decreases hi - lo
  {
    if lo == hi then None
    else if t[hi - 1] == '\n' then Some(hi - 1)
    else LastLineFeed(t, lo, hi - 1)
  }

  /** Every separator match starting at p has its G where the leading whitespace ends and
      ends no later than the trailing whitespace run; short of the end of the text it ends
      on a line feed inside that run. */
  lemma SeparatorBounds(t: string, p: nat, g: nat, e: nat)
    requires SeparatorAt(t, p, g, e)
    ensures g == SkipWs(t, p)
    ensures e <= SkipWs(t, g + 2)
    ensures SkipWs(t, g + 2) < |t| ==> e < SkipWs(t, g + 2) && t[e] == '\n'
  {
    SkipWsStopsAt(t, p, g);
    var v := SkipWs(t, g + 2);
    assert v < |t| ==> !IsWs(t[v]);
  }

  /** One attempt of the regex at position p. The first `\s*` can only stop where the
      whitespace ends; the second is greedy and backtracks to the last position where `$`
      holds, so the match is the longest one starting at p. */
  function MatchAt(t: string, p: nat): (r: Option<nat>)
    requires p <= |t|
    ensures r.Some? ==> SeparatorAt(t, p, SkipWs(t, p), r.value)
    ensures forall g: nat, e: nat :: SeparatorAt(t, p, g, e) ==> r.Some? && e <= r.value
  {
    SeparatorBoundsAll(t, p);
    if p > 0 && t[p - 1] != '\n' then None
    else
      var g := SkipWs(t, p);
      if g + 2 <= |t| && IsG(t[g]) && IsO(t[g + 1]) then
        var v := SkipWs(t, g + 2);
        if v == |t| then Some(v) else LastLineFeed(t, g + 2, v)
      else None
  }

  /** SeparatorBounds for every match at p at once. */
  lemma SeparatorBoundsAll(t: string, p: nat)
    ensures forall g: nat, e: nat :: SeparatorAt(t, p, g, e) ==>
              g == SkipWs(t, p) && e <= SkipWs(t, g + 2)
              && (SkipWs(t, g + 2) < |t| ==> e < SkipWs(t, g + 2) && t[e] == '\n')
  {
    forall g: nat, e: nat | SeparatorAt(t, p, g, e)
      ensures g == SkipWs(t, p) && e <= SkipWs(t, g + 2)
              && (SkipWs(t, g + 2) < |t| ==> e < SkipWs(t, g + 2) && t[e] == '\n')
    {
      SeparatorBounds(t, p, g, e);
    }
  }

  /** A matched region t[start..end]. */
  datatype Span = Span(start: nat, end: nat)

  /** Spans lie inside t at or after `from`, are non-empty and do not overlap, in order. */
  predicate Ordered(t: string, from: nat, spans: seq<Span>) {
    && (forall k :: 0 <= k < |spans| ==> from <= spans[k].start < spans[k].end <= |t|)
    && (forall j, k :: 0 <= j < k < |spans| ==> spans[j].end <= spans[k].start)
  }

  /** Position x lies inside one of the spans. */
  predicate Covers(spans: seq<Span>, x: nat) {
    exists k :: 0 <= k < |spans| && spans[k].start <= x < spans[k].end
  }

  /** The matches the regex engine finds searching t from p: each search resumes where the
      previous match ended. */
  function Scan(t: string, p: nat): (r: seq<Span>)
    requires p <= |t|
    ensures Ordered(t, p, r)
    ensures forall k :: 0 <= k < |r| ==> MatchAt(t, r[k].start) == Some(r[k].end)
    decreases |t| - p
  {
    if p == |t| then []
    else match MatchAt(t, p)
      case Some(e) =>
        var rest := Scan(t, e);
        OrderedCons(t, p, e, rest);
        MatchesCons(t, p, e, rest);
        [Span(p, e)] + rest
      case None => Scan(t, p + 1)
  }

  /** A span from p to e followed by ordered spans from e is ordered from p. */
  lemma OrderedCons(t: string, p: nat, e: nat, rest: seq<Span>)
    requires p < e <= |t| && Ordered(t, e, rest)
    ensures Ordered(t, p, [Span(p, e)] + rest)
  {
    var r := [Span(p, e)] + rest;
    assert forall k :: 0 < k < |r| ==> r[k] == rest[k - 1];
  }

  /** A match at p followed by matches is a list of matches. */
  lemma MatchesCons(t: string, p: nat, e: nat, rest: seq<Span>)
    requires p <= |t| && MatchAt(t, p) == Some(e)
    requires forall k :: 0 <= k < |rest| ==> rest[k].start <= |t| && MatchAt(t, rest[k].start) == Some(rest[k].end)
    ensures var r := [Span(p, e)] + rest;
            forall k :: 0 <= k < |r| ==> r[k].start <= |t| && MatchAt(t, r[k].start) == Some(r[k].end)
  {
    var r := [Span(p, e)] + rest;
    assert forall k :: 0 < k < |r| ==> r[k] == rest[k - 1];
  }

  /** The search misses no match: every position where the regex could match lies inside
      a match the search found (it may sit inside an earlier, longer match). */
  lemma {:induction false} ScanFindsEveryMatch(t: string, p: nat, x: nat)
    requires p <= x < |t|
    requires MatchAt(t, x).Some?
    ensures Covers(Scan(t, p), x)
    decreases |t| - p
  {
    var r := Scan(t, p);
    match MatchAt(t, p)
    case Some(e) =>
      if x < e {
        assert r[0] == Span(p, e);
      } else {
        ScanFindsEveryMatch(t, e, x);
        var k :| 0 <= k < |Scan(t, e)| && Scan(t, e)[k].start <= x < Scan(t, e)[k].end;
        assert r[k + 1] == Scan(t, e)[k];
      }
    case None =>
      ScanFindsEveryMatch(t, p + 1, x);
  }

  /** The spans after the first are ordered from the end of the first. */
  lemma OrderedTail(t: string, from: nat, spans: seq<Span>)
    requires Ordered(t, from, spans) && spans != []
    ensures spans[0].end <= |t| && Ordered(t, spans[0].end, spans[1..])
  {
    assert forall k :: 0 <= k < |spans| - 1 ==> spans[1..][k] == spans[k + 1];
  }

  /** The pieces of t[from..] between consecutive spans: what Regex.Split returns. */
  function Pieces(t: string, from: nat, spans: seq<Span>): (r: seq<string>)
    requires from <= |t| && Ordered(t, from, spans)
    ensures |r| == |spans| + 1
    decreases |spans|
  {
    if spans == [] then [t[from..]]
    else [t[from..spans[0].start]] + Pieces(t, spans[0].end, spans[1..])
  }

  /** The matched separator texts. */
  function Separators(t: string, from: nat, spans: seq<Span>): (r: seq<string>)
    requires from <= |t| && Ordered(t, from, spans)
    ensures |r| == |spans|
    ensures forall k :: 0 <= k < |r| ==> r[k] == t[spans[k].start..spans[k].end]
    decreases |spans|
  {
    if spans == [] then []
    else [t[spans[0].start..spans[0].end]] + Separators(t, spans[0].end, spans[1..])
  }

  /** The pieces with the separators put back between them. */
  function Interleave(pieces: seq<string>, seps: seq<string>): string
    requires |pieces| == |seps| + 1
    decreases |seps|
  {
    if seps == [] then pieces[0]
    else pieces[0] + seps[0] + Interleave(pieces[1..], seps[1..])
  }

  /** Each piece is the text between two consecutive spans: the first runs from `from` to the
      first span, the last from the last span to the end of t. */
  lemma {:induction false} PiecesBetweenMatches(t: string, from: nat, spans: seq<Span>)
    requires from <= |t| && Ordered(t, from, spans)
    ensures var r := Pieces(t, from, spans);
            && r[0] == t[from..if spans == [] then |t| else spans[0].start]
            && (forall k :: 0 < k < |spans| ==> r[k] == t[spans[k - 1].end..spans[k].start])
            && (spans != [] ==> r[|spans|] == t[spans[|spans| - 1].end..])
    decreases |spans|
  {
    if spans != [] {
      OrderedTail(t, from, spans);
      var rest := spans[1..];
      PiecesBetweenMatches(t, spans[0].end, rest);
      var r := Pieces(t, from, spans);
      assert r[1..] == Pieces(t, spans[0].end, rest);
      forall k | 1 < k < |spans|
        ensures r[k] == t[spans[k - 1].end..spans[k].start]
      {
        assert rest[k - 2] == spans[k - 1] && rest[k - 1] == spans[k];
      }
      if 1 < |spans| {
        assert rest[0] == spans[1] && rest[|rest| - 1] == spans[|spans| - 1];
      }
    }
  }

  /** `Regex.Split(script, @"^\s*GO\s*$", RegexOptions.Multiline | RegexOptions.IgnoreCase)`:
      one piece more than there are matches. */
  function RegexSplit(t: string): (r: seq<string>)
    ensures |r| == |Scan(t, 0)| + 1
  {
    Pieces(t, 0, Scan(t, 0))
  }

  /** `.Where(b => !string.IsNullOrWhiteSpace(b))`: drops blank pieces, keeps the rest in order. */
  function NonBlank(pieces: seq<string>): (r: seq<string>)
    ensures forall b :: b in r ==> !IsBlank(b) && b in pieces
    ensures forall b :: b in pieces && !IsBlank(b) ==> b in r
    ensures |r| <= |pieces|
  {
    if pieces == [] then []
    else (if IsBlank(pieces[0]) then [] else [pieces[0]]) + NonBlank(pieces[1..])
  }

  /** Every position moved one place on. */
  function Shift(positions: seq<nat>): (r: seq<nat>)
    ensures |r| == |positions|
    ensures forall k :: 0 <= k < |r| ==> r[k] == positions[k] + 1
  {
    seq(|positions|, k requires 0 <= k < |positions| => positions[k] + 1)
  }

  /** The positions of the non-blank pieces, in increasing order. */
  function NonBlankPositions(pieces: seq<string>): (r: seq<nat>)
    ensures forall k :: 0 <= k < |r| ==> r[k] < |pieces|
  {
    if pieces == [] then []
    else (if IsBlank(pieces[0]) then [] else [0]) + Shift(NonBlankPositions(pieces[1..]))
  }

  /** The k-th kept piece is the piece at the k-th listed position. */
  lemma {:induction false} NonBlankAtPositions(pieces: seq<string>)
    ensures |NonBlankPositions(pieces)| == |NonBlank(pieces)|
    ensures forall k :: 0 <= k < |NonBlank(pieces)| ==> NonBlank(pieces)[k] == pieces[NonBlankPositions(pieces)[k]]
  {
    if pieces != [] {
      NonBlankAtPositions(pieces[1..]);
    }
  }

  /** The listed positions increase strictly. */
  lemma {:induction false} NonBlankPositionsIncrease(pieces: seq<string>)
    ensures forall j, k :: 0 <= j < k < |NonBlankPositions(pieces)| ==>
              NonBlankPositions(pieces)[j] < NonBlankPositions(pieces)[k]
  {
    if pieces != [] {
      NonBlankPositionsIncrease(pieces[1..]);
    }
  }

  /** A position is in a shifted list exactly when the one before it is in the list. */
  lemma InShift(positions: seq<nat>, i: nat)
    ensures i in Shift(positions) <==> 0 < i && i - 1 in positions
  {
    var shifted := Shift(positions);
    if i in shifted {
      var k :| 0 <= k < |shifted| && shifted[k] == i;
      assert positions[k] == i - 1;
    }
    if 0 < i && i - 1 in positions {
      var k :| 0 <= k < |positions| && positions[k] == i - 1;
      assert shifted[k] == i;
    }
  }

  /** The listed positions are exactly those of the non-blank pieces. */
  lemma {:induction false} NonBlankPositionsExact(pieces: seq<string>)
    ensures forall i :: 0 <= i < |pieces| ==> (i in NonBlankPositions(pieces) <==> !IsBlank(pieces[i]))
  {
    if pieces != [] {
      var tail := pieces[1..];
      NonBlankPositionsExact(tail);
      var rest := NonBlankPositions(tail);
      forall i | 0 <= i < |pieces|
        ensures i in NonBlankPositions(pieces) <==> !IsBlank(pieces[i])
      {
        InShift(rest, i);
        if 0 < i {
          assert pieces[i] == tail[i - 1];
        }
      }
    }
  }

  /** The filter keeps a subsequence of the pieces, with order and repetitions: the k-th
      result is the piece at the k-th of a strictly increasing list of positions, and those
      positions are exactly the positions of the non-blank pieces. */
  lemma NonBlankSubsequence(pieces: seq<string>)
    ensures var r, idx := NonBlank(pieces), NonBlankPositions(pieces);
            && |idx| == |r|
            && (forall k :: 0 <= k < |idx| ==> r[k] == pieces[idx[k]])
            && (forall j, k :: 0 <= j < k < |idx| ==> idx[j] < idx[k])
            && (forall i :: 0 <= i < |pieces| ==> (i in idx <==> !IsBlank(pieces[i])))
  {
    NonBlankAtPositions(pieces);
    NonBlankPositionsIncrease(pieces);
    NonBlankPositionsExact(pieces);
  }

  /** Filtering distributes over concatenation. */
  lemma {:induction false} NonBlankAppend(a: seq<string>, b: seq<string>)
    ensures NonBlank(a + b) == NonBlank(a) + NonBlank(b)
  {
    if a == [] {
      assert a + b == b;
    } else {
      assert (a + b)[0] == a[0];
      assert (a + b)[1..] == a[1..] + b;
      NonBlankAppend(a[1..], b);
    }
  }

  /** The non-blank batches around a non-blank batch i: those before it, it, those after. */
  lemma NonBlankAround(batches: seq<string>, i: nat)
    requires i < |batches| && !IsBlank(batches[i])
    ensures NonBlank(batches) == NonBlank(batches[..i]) + [batches[i]] + NonBlank(batches[i + 1..])
  {
    var tail := batches[i..];
    assert NonBlank(batches) == NonBlank(batches[..i]) + NonBlank(tail) by {
      assert batches == batches[..i] + tail;
      NonBlankAppend(batches[..i], tail);
    }
    assert NonBlank(tail) == [batches[i]] + NonBlank(batches[i + 1..]) by {
      assert tail[0] == batches[i] && tail[1..] == batches[i + 1..];
    }
    ConcatAssoc(NonBlank(batches[..i]), [batches[i]], NonBlank(batches[i + 1..]));
  }

  /** Concatenation is associative. */
  lemma ConcatAssoc<T>(a: seq<T>, b: seq<T>, c: seq<T>)
    ensures a + (b + c) == a + b + c
  {
  }

  /** Filtering a sequence that holds no blank text leaves it as it is. */
  lemma {:induction false} NonBlankOfNonBlank(pieces: seq<string>)
    requires forall b :: b in pieces ==> !IsBlank(b)
    ensures NonBlank(pieces) == pieces
  {
    if pieces != [] {
      assert pieces[0] in pieces;
      assert forall b :: b in pieces[1..] ==> b in pieces;
      NonBlankOfNonBlank(pieces[1..]);
    }
  }

  /** SplitSqlBatches: the batches of a script, none of them empty or whitespace-only. */
  function SplitSqlBatches(script: string): (batches: seq<string>)
    ensures forall b :: b in batches ==> !IsBlank(b) && b in RegexSplit(script)
    ensures forall b :: b in RegexSplit(script) && !IsBlank(b) ==> b in batches
  {
    NonBlank(RegexSplit(script))
  }

  /** The batches are the non-blank pieces of the split in their order, repetitions included:
      the k-th batch is the piece at the k-th of the increasing positions of the non-blank
      pieces. */
  lemma SplitKeepsPieceOrder(script: string)
    ensures var pieces, batches, idx := RegexSplit(script), SplitSqlBatches(script), NonBlankPositions(RegexSplit(script));
            && |idx| == |batches|
            && (forall k :: 0 <= k < |idx| ==> batches[k] == pieces[idx[k]])
            && (forall j, k :: 0 <= j < k < |idx| ==> idx[j] < idx[k])
            && (forall i :: 0 <= i < |pieces| ==> (i in idx <==> !IsBlank(pieces[i])))
  {
    NonBlankSubsequence(RegexSplit(script));
  }

  /* ---------------------------------------------------------------------------------------
     Which text a separator consumes.
     --------------------------------------------------------------------------------------- */

  /** A separator match is a GO line: every non-whitespace character it consumes lies on a
      line that, trimmed, is GO. */
  lemma MatchedCharOnGoLine(t: string, s: nat, e: nat, i: nat)
    requires s <= |t| && MatchAt(t, s) == Some(e)
    requires s <= i < e && !IsWs(t[i])
    ensures OnGoLine(t, i)
  {
    var g := SkipWs(t, s);
    var a := LineStart(t, i);
    var b := LineEnd(t, i);
    assert s <= a <= g && g + 2 <= b <= e && AllWs(t, a, g) && AllWs(t, g + 2, b)
           && IsG(t[g]) && IsO(t[g + 1]) by {
      assert SeparatorAt(t, s, g, e);
      assert i == g || i == g + 1;
    }
    GoTextOfSlice(t, a, g, b);
  }

  /** Conversely, a line that trims to GO is a place where the regex matches: from the
      start of the line to its end. */
  lemma GoLineMatches(t: string, i: nat)
    requires i < |t| && OnGoLine(t, i)
    ensures SeparatorAt(t, LineStart(t, i), LineStart(t, i) + SkipWs(LineOf(t, i), 0), LineEnd(t, i))
  {
    var a := LineStart(t, i);
    var b := LineEnd(t, i);
    SliceOfGoText(t, a, b);
    var k := SkipWs(LineOf(t, i), 0);
    assert IsG(t[a + k]) && IsO(t[a + k + 1]);
    assert a == 0 || t[a - 1] == '\n';
    assert b == |t| || t[b] == '\n';
    assert SeparatorAt(t, a, a + k, b);
  }

  /** Every character of a GO line, other than its line feed, is consumed by a match of the
      search from the start of the text: the line always splits. */
  lemma GoLineConsumed(t: string, i: nat)
    requires i < |t| && t[i] != '\n' && OnGoLine(t, i)
    ensures Covers(Scan(t, 0), i)
  {
    var a := LineStart(t, i);
    assert MatchAt(t, a).Some? by {
      GoLineMatches(t, i);
    }
    var r := Scan(t, 0);
    assert Covers(r, a) by {
      ScanFindsEveryMatch(t, 0, a);
    }
    var m :| 0 <= m < |r| && r[m].start <= a < r[m].end;
    MatchReachesLineEnd(t, r[m].start, r[m].end, a, i);
  }

  /** A match covering position a runs at least to the end of a's line, so it covers every
      position of that line from a on. */
  lemma MatchReachesLineEnd(t: string, s: nat, e: nat, a: nat, i: nat)
    requires s <= a < e && a <= i < |t| && t[i] != '\n'
    requires e <= |t| && MatchAt(t, s) == Some(e)
    requires forall j :: a <= j < i ==> t[j] != '\n'
    ensures i < e
  {
    assert e == |t| || t[e] == '\n' by {
      assert SeparatorAt(t, s, SkipWs(t, s), e);
    }
  }

  /** A non-whitespace character is consumed by a separator exactly when its line, trimmed,
      is GO in any casing. So `go`, `  Go  ` and `GO\r` lines split, while a GO sharing its
      line with anything else (`GO;`, `GOTO`, `GO 5`, `SELECT 'GO HOME'`) never does. */
  lemma SeparatorIffGoLine(t: string, i: nat)
    requires i < |t| && !IsWs(t[i])
    ensures Covers(Scan(t, 0), i) <==> OnGoLine(t, i)
  {
    if Covers(Scan(t, 0), i) {
      var r := Scan(t, 0);
      var m :| 0 <= m < |r| && r[m].start <= i < r[m].end;
      MatchedCharOnGoLine(t, r[m].start, r[m].end, i);
    }
    if OnGoLine(t, i) {
      GoLineConsumed(t, i);
    }
  }

  /** The matched text itself trims to GO. */
  lemma MatchedTextIsGo(t: string, s: nat, e: nat)
    requires s <= |t| && MatchAt(t, s) == Some(e)
    ensures IsGoText(t[s..e])
  {
    GoTextOfSlice(t, s, SkipWs(t, s), e);
  }

  /* ---------------------------------------------------------------------------------------
     Nothing but separators is lost.
     --------------------------------------------------------------------------------------- */

  /** Putting the separators back between the pieces gives the text back. */
  lemma {:induction false} PiecesReassemble(t: string, from: nat, spans: seq<Span>)
    requires from <= |t| && Ordered(t, from, spans)
    ensures Interleave(Pieces(t, from, spans), Separators(t, from, spans)) == t[from..]
    decreases |spans|
  {
    if spans != [] {
      var s0, e0 := spans[0].start, spans[0].end;
      var ps := Pieces(t, from, spans);
      var ss := Separators(t, from, spans);
      OrderedTail(t, from, spans);
      assert Interleave(ps[1..], ss[1..]) == t[e0..] by {
        PiecesReassemble(t, e0, spans[1..]);
        assert ps[1..] == Pieces(t, e0, spans[1..]);
        assert ss[1..] == Separators(t, e0, spans[1..]);
      }
      assert ps[0] == t[from..s0] && ss[0] == t[s0..e0];
      assert t[from..] == t[from..s0] + t[s0..e0] + t[e0..];
    }
  }

  /** Regex.Split loses nothing but the separators, and every separator is whitespace around
      one GO: the pieces, with the separators put back between them, are the script. */
  lemma SplitReassembles(t: string)
    ensures Interleave(RegexSplit(t), Separators(t, 0, Scan(t, 0))) == t
    ensures forall sep :: sep in Separators(t, 0, Scan(t, 0)) ==> IsGoText(sep)
  {
    var r := Scan(t, 0);
    PiecesReassemble(t, 0, r);
    assert t[0..] == t;
    var ss := Separators(t, 0, r);
    forall sep | sep in ss ensures IsGoText(sep) {
      var k :| 0 <= k < |ss| && ss[k] == sep;
      MatchedTextIsGo(t, r[k].start, r[k].end);
    }
  }

  /** Character i is neither whitespace nor on a GO line. */
  predicate Significant(t: string, i: nat)
    requires i < |t|
  {
    !IsWs(t[i]) && !OnGoLine(t, i)
  }

  /** The non-whitespace characters of t[lo..hi] that do not lie on a GO line, in order. */
  function Kept(t: string, lo: nat, hi: nat): string
    requires lo <= hi <= |t|
    decreases hi - lo
  {
    if lo == hi then [] else (if Significant(t, lo) then [t[lo]] else []) + Kept(t, lo + 1, hi)
  }

  lemma {:induction false} KeptAppend(t: string, lo: nat, mid: nat, hi: nat)
    requires lo <= mid <= hi <= |t|
    ensures Kept(t, lo, hi) == Kept(t, lo, mid) + Kept(t, mid, hi)
    decreases mid - lo
  {
    if lo < mid {
      KeptAppend(t, lo + 1, mid, hi);
    }
  }

  /** Where no GO line is involved, the kept characters are the stripped text. */
  lemma {:induction false} KeptOfPiece(t: string, lo: nat, hi: nat)
    requires lo <= hi <= |t|
    requires forall i :: lo <= i < hi && !IsWs(t[i]) ==> !OnGoLine(t, i)
    ensures Kept(t, lo, hi) == Strip(t[lo..hi])
    decreases hi - lo
  {
    if lo < hi {
      KeptOfPiece(t, lo + 1, hi);
      assert t[lo..hi][0] == t[lo];
      assert t[lo..hi][1..] == t[lo + 1..hi];
    }
  }

  /** A separator match keeps nothing. */
  lemma {:induction false} KeptOfGoLines(t: string, lo: nat, hi: nat)
    requires lo <= hi <= |t|
    requires forall i :: lo <= i < hi && !IsWs(t[i]) ==> OnGoLine(t, i)
    ensures Kept(t, lo, hi) == []
    decreases hi - lo
  {
    if lo < hi {
      KeptOfGoLines(t, lo + 1, hi);
    }
  }

  lemma KeptOfMatch(t: string, s: nat, e: nat)
    requires s <= |t| && MatchAt(t, s) == Some(e)
    ensures Kept(t, s, e) == []
  {
    forall i | s <= i < e && !IsWs(t[i]) ensures OnGoLine(t, i) {
      MatchedCharOnGoLine(t, s, e, i);
    }
    KeptOfGoLines(t, s, e);
  }

  /** Before the first span, no character is covered. */
  lemma GapBeforeFirstSpan(t: string, from: nat, spans: seq<Span>)
    requires from <= |t| && Ordered(t, from, spans) && spans != []
    requires forall i :: from <= i < |t| && !IsWs(t[i]) && OnGoLine(t, i) ==> Covers(spans, i)
    ensures forall i :: from <= i < spans[0].start && !IsWs(t[i]) ==> !OnGoLine(t, i)
  {
    assert forall k :: 0 <= k < |spans| ==> spans[0].start <= spans[k].start;
    forall i | from <= i < spans[0].start && !IsWs(t[i])
      ensures !OnGoLine(t, i)
    {
      assert !Covers(spans, i);
    }
  }

  /** The pieces between valid matches, which cover every GO line, keep exactly the
      non-whitespace characters that are not on a GO line. */
  lemma {:induction false} PiecesKeep(t: string, from: nat, spans: seq<Span>)
    requires from <= |t| && Ordered(t, from, spans)
    requires forall k :: 0 <= k < |spans| ==> MatchAt(t, spans[k].start) == Some(spans[k].end)
    requires forall i :: from <= i < |t| && !IsWs(t[i]) && OnGoLine(t, i) ==> Covers(spans, i)
    ensures Strip(Concat(Pieces(t, from, spans))) == Kept(t, from, |t|)
    decreases |spans|
  {
    var ps := Pieces(t, from, spans);
    if spans == [] {
      assert Concat(ps) == t[from..|t|];
      KeptOfPiece(t, from, |t|);
    } else {
      var s0, e0 := spans[0].start, spans[0].end;
      var rest := spans[1..];
      assert Strip(Concat(Pieces(t, e0, rest))) == Kept(t, e0, |t|) by {
        forall i | e0 <= i < |t| && !IsWs(t[i]) && OnGoLine(t, i)
          ensures Covers(rest, i)
        {
          var k :| 0 <= k < |spans| && spans[k].start <= i < spans[k].end;
          assert rest[k - 1] == spans[k];
        }
        OrderedTail(t, from, spans);
        assert forall k :: 0 <= k < |rest| ==> rest[k] == spans[k + 1];
        PiecesKeep(t, e0, rest);
      }
      assert Strip(t[from..s0]) == Kept(t, from, s0) by {
        GapBeforeFirstSpan(t, from, spans);
        KeptOfPiece(t, from, s0);
      }
      assert Kept(t, s0, e0) == [] by {
        KeptOfMatch(t, s0, e0);
      }
      assert Strip(Concat(ps)) == Strip(t[from..s0]) + Strip(Concat(Pieces(t, e0, rest))) by {
        assert ps[0] == t[from..s0] && ps[1..] == Pieces(t, e0, rest);
        StripAppend(t[from..s0], Concat(ps[1..]));
      }
      assert Kept(t, s0, |t|) == Kept(t, e0, |t|) by {
        KeptAppend(t, s0, e0, |t|);
      }
      assert Kept(t, from, |t|) == Kept(t, from, s0) + Kept(t, s0, |t|) by {
        KeptAppend(t, from, s0, |t|);
      }
    }
  }

  /** Dropping blank pieces loses no non-whitespace character. */
  lemma {:induction false} NonBlankKeepsContent(pieces: seq<string>)
    ensures Strip(Concat(NonBlank(pieces))) == Strip(Concat(pieces))
  {
    if pieces != [] {
      var p := pieces[0];
      NonBlankKeepsContent(pieces[1..]);
      StripAppend(p, Concat(pieces[1..]));
      if IsBlank(p) {
        StripBlank(p);
        assert NonBlank(pieces) == NonBlank(pieces[1..]);
      } else {
        var nb := NonBlank(pieces);
        assert nb[0] == p && nb[1..] == NonBlank(pieces[1..]);
        StripAppend(p, Concat(NonBlank(pieces[1..])));
      }
    }
  }

  /** The batches keep the script's content, in order, up to whitespace: their
      non-whitespace characters are exactly those of the script that are not on a GO line. */
  lemma SplitKeepsContent(script: string)
    ensures Strip(Concat(SplitSqlBatches(script))) == Kept(script, 0, |script|)
  {
    var r := Scan(script, 0);
    forall i | 0 <= i < |script| && !IsWs(script[i]) && OnGoLine(script, i)
      ensures Covers(r, i)
    {
      GoLineConsumed(script, i);
    }
    PiecesKeep(script, 0, r);
    NonBlankKeepsContent(RegexSplit(script));
  }

  /** A script with some content and no GO line is a single batch: the script itself. */
  lemma NoGoLineSingleBatch(script: string)
    requires !IsBlank(script)
    requires forall i :: 0 <= i < |script| ==> !OnGoLine(script, i)
    ensures SplitSqlBatches(script) == [script]
  {
    var r := Scan(script, 0);
    if r != [] {
      var g := SkipWs(script, r[0].start);
      MatchedCharOnGoLine(script, r[0].start, r[0].end, g);
      assert false;
    }
    assert RegexSplit(script) == [script[0..]];
    assert script[0..] == script;
  }
}

=== FILE: splitter_examples.dfy ===
/** Worked instances of the separator rule and of SplitSqlBatches on small scripts. */
module SplitterExamples {
  import opened Common
  import opened Text
  import opened BatchSplitter

  /** Lines that split: `go`, `  Go  ` and `GO\r` (a CRLF line without its line feed). */
  lemma GoLineExamples()
    ensures IsGoText("go") && IsGoText("  Go  ") && IsGoText("GO\r")
  {
    GoAt("go", 0);
    GoAt("  Go  ", 2);
    GoAt("GO\r", 0);
  }

  /** GoTextFromShape with the shape spelled out for a literal. */
  lemma GoAt(s: string, k: nat)
    requires k + 2 <= |s| && IsG(s[k]) && IsO(s[k + 1])
    requires forall j :: 0 <= j < |s| && (j < k || k + 2 <= j) ==> IsWs(s[j])
    ensures IsGoText(s)
  {
    GoTextFromShape(s, k);
  }

  /** Lines that do not split: GO sharing its line with anything else. */
  lemma NotGoLineExamples()
    ensures !IsGoText("GO;") && !IsGoText("GOTO") && !IsGoText("GO 5") && !IsGoText("SELECT 'GO HOME'")
  {
    GoFollowedByText("GO;", 2);
    GoFollowedByText("GOTO", 2);
    GoFollowedByText("GO 5", 3);
    NotStartingWithGo("SELECT 'GO HOME'");
  }

  /** A line whose first character is neither whitespace nor G is not a separator. */
  lemma NotStartingWithGo(s: string)
    requires |s| > 0 && !IsWs(s[0]) && !IsG(s[0])
    ensures !IsGoText(s)
  {
    GoTextIff(s);
    assert SkipWs(s, 0) == 0;
  }

  /** A line that starts with GO and has more than whitespace after it is not a separator. */
  lemma GoFollowedByText(s: string, j: nat)
    requires 2 <= j < |s| && !IsWs(s[0]) && !IsWs(s[j])
    ensures !IsGoText(s)
  {
    GoTextIff(s);
    assert SkipWs(s, 0) == 0;
  }

  /** Text with a non-whitespace character is not blank. */
  lemma NotBlankAt(s: string, j: nat)
    requires j < |s| && !IsWs(s[j])
    ensures !IsBlank(s)
  {
  }

  /** A script with exactly one separator match that leaves text on both sides splits into
      two batches: the text before the match and the text after it. */
  lemma SplitOfOneMatch(t: string, a: nat, b: nat, before: string, after: string)
    requires a < b <= |t| && Scan(t, 0) == [Span(a, b)]
    requires t[..a] == before && t[b..] == after
    requires !IsBlank(before) && !IsBlank(after)
    ensures SplitSqlBatches(t) == [before, after]
  {
    var spans := Scan(t, 0);
    assert Pieces(t, b, spans[1..]) == [t[b..]] by {
      assert spans[1..] == [];
    }
    assert RegexSplit(t) == [t[..a], t[b..]] by {
      assert t[0..a] == t[..a];
    }
    NonBlankOfNonBlank([t[..a], t[b..]]);
  }

  /** Two statements separated by a GO line. The match is the two letters alone: the
      trailing `\s*` gives back the line feed so that `$` holds, and the line feeds on both
      sides stay in the batches. */
  lemma SplitExample()
    ensures SplitSqlBatches("A\nGO\nB") == ["A\n", "\nB"]
  {
    var t := "A\nGO\nB";
    SplitScan();
    NotBlankAt("A\n", 0);
    NotBlankAt("\nB", 1);
    SplitOfOneMatch(t, 2, 4, "A\n", "\nB");
  }

  /** A blank line before the GO line is absorbed into the separator, and so is the line
      feed ending the GO line; the match stops before the last line feed of the blank run
      that follows. */
  lemma BlankLinesAbsorbedExample()
    ensures SplitSqlBatches("A\n\nGO\n\nB") == ["A\n", "\nB"]
  {
    var t := "A\n\nGO\n\nB";
    BlankLinesAbsorbedScan();
    NotBlankAt("A\n", 0);
    NotBlankAt("\nB", 1);
    SplitOfOneMatch(t, 2, 6, "A\n", "\nB");
  }

  /** Where the regex matches in `A\n\nGO\n\nB`: only at the blank line before GO. */
  lemma BlankLinesMatches()
    ensures var t := "A\n\nGO\n\nB";
            && MatchAt(t, 0) == None && MatchAt(t, 1) == None && MatchAt(t, 2) == Some(6)
            && MatchAt(t, 6) == None && MatchAt(t, 7) == None
  {
    var t := "A\n\nGO\n\nB";
    assert MatchAt(t, 0) == None;
    assert SkipWs(t, 2) == 3 && SkipWs(t, 5) == 7;
    assert LastLineFeed(t, 5, 7) == Some(6);
    assert SkipWs(t, 6) == 7;
  }

  /** A CRLF GO line splits: the `\s*` after GO takes the carriage return. */
  lemma CrLfExample()
    ensures SplitSqlBatches("A\r\nGO\r\nB") == ["A\r\n", "\nB"]
  {
    var t := "A\r\nGO\r\nB";
    CrLfScan();
    NotBlankAt("A\r\n", 0);
    NotBlankAt("\nB", 1);
    SplitOfOneMatch(t, 3, 6, "A\r\n", "\nB");
  }

  /** Where the regex matches in `A\r\nGO\r\nB`: only at the start of the GO line. */
  lemma CrLfMatches()
    ensures var t := "A\r\nGO\r\nB";
            && MatchAt(t, 0) == None && MatchAt(t, 1) == None && MatchAt(t, 2) == None
            && MatchAt(t, 3) == Some(6) && MatchAt(t, 6) == None && MatchAt(t, 7) == None
  {
    var t := "A\r\nGO\r\nB";
    assert MatchAt(t, 0) == None;
    assert SkipWs(t, 3) == 3 && SkipWs(t, 5) == 7;
    assert LastLineFeed(t, 5, 7) == Some(6);
    assert SkipWs(t, 7) == 7;
  }

  /** A script holding only a GO line has no batch at all. */
  lemma OnlyGoExample()
    ensures SplitSqlBatches("GO") == []
  {
    var t := "GO";
    assert MatchAt(t, 0) == Some(2);
    assert Scan(t, 0) == [Span(0, 2)];
    assert RegexSplit(t) == [t[0..0], t[2..]];
    assert IsBlank(t[0..0]) && IsBlank(t[2..]);
  }

  /** The search over `A\nGO\nB` finds the GO line only. */
  lemma SplitScan()
    ensures Scan("A\nGO\nB", 0) == [Span(2, 4)]
  {
    var t := "A\nGO\nB";
    assert Scan(t, 5) == [] by {
      assert MatchAt(t, 5) == None;
    }
    assert Scan(t, 4) == [] by {
      assert MatchAt(t, 4) == None;
    }
    assert Scan(t, 2) == [Span(2, 4)] by {
      assert MatchAt(t, 2) == Some(4);
    }
    assert Scan(t, 1) == Scan(t, 2) by {
      assert MatchAt(t, 1) == None;
    }
    assert Scan(t, 0) == Scan(t, 1) by {
      assert MatchAt(t, 0) == None;
    }
  }

  /** The search over `A\n\nGO\n\nB` finds one match, from the blank line to the GO line. */
  lemma BlankLinesAbsorbedScan()
    ensures Scan("A\n\nGO\n\nB", 0) == [Span(2, 6)]
  {
    var t := "A\n\nGO\n\nB";
    BlankLinesMatches();
    assert Scan(t, 7) == [];
    assert Scan(t, 6) == [];
    assert Scan(t, 2) == [Span(2, 6)];
    assert Scan(t, 1) == Scan(t, 2);
    assert Scan(t, 0) == Scan(t, 1);
  }

  /** The search over `A\r\nGO\r\nB` finds the GO line only. */
  lemma CrLfScan()
    ensures Scan("A\r\nGO\r\nB", 0) == [Span(3, 6)]
  {
    var t := "A\r\nGO\r\nB";
    CrLfMatches();
    assert Scan(t, 7) == [];
    assert Scan(t, 6) == [];
    assert Scan(t, 3) == [Span(3, 6)];
    assert Scan(t, 2) == Scan(t, 3);
    assert Scan(t, 1) == Scan(t, 2);
    assert Scan(t, 0) == Scan(t, 1);
  }
}

=== FILE: text.dfy ===
/** Character classes, trimming and line structure of script text, as the .NET runtime sees them. */
module Text {

  /** Whitespace as both the regex class `\s` and `Char.IsWhiteSpace` define it:
      U+0009..U+000D, U+0085 and the Unicode separator categories Zs, Zl and Zp. */
  predicate IsWs(c: char) {
    ('\t' <= c <= '\r') || c == ' ' || c == '\U{85}' || c == '\U{A0}' || c == '\U{1680}'
    || ('\U{2000}' <= c <= '\U{200A}') || c == '\U{2028}' || c == '\U{2029}'
    || c == '\U{202F}' || c == '\U{205F}' || c == '\U{3000}'
  }

  /** The letters of `GO` under a case-insensitive comparison. */
  predicate IsG(c: char) { c == 'G' || c == 'g' }
  predicate IsO(c: char) { c == 'O' || c == 'o' }

  /** Every character of s[lo..hi] is whitespace. */
  predicate AllWs(s: string, lo: int, hi: int)
    requires 0 <= lo <= hi <= |s|
  {
    forall j :: lo <= j < hi ==> IsWs(s[j])
  }

  /** `string.IsNullOrWhiteSpace` on a non-null string. */
  predicate IsBlank(s: string) {
    AllWs(s, 0, |s|)
  }

  /** The first index at or after i that does not hold whitespace (|s| if there is none). */
  function SkipWs(s: string, i: nat): (r: nat)
    requires i <= |s|
    ensures i <= r <= |s|
    ensures AllWs(s, i, r)
    ensures r < |s| ==> !IsWs(s[r])
    decreases |s| - i
  {
    if i == |s| || !IsWs(s[i]) then i else SkipWs(s, i + 1)
  }

  /** SkipWs stops exactly at the first non-whitespace character. */
  lemma SkipWsStopsAt(s: string, i: nat, k: nat)
    requires i <= k < |s|
    requires AllWs(s, i, k) && !IsWs(s[k])
    ensures SkipWs(s, i) == k
  {
  }

  /** `String.TrimEnd()`: the longest prefix of s that does not end in whitespace. */
  function TrimEnd(s: string): (r: string)
    ensures |r| <= |s| && r == s[..|r|]
    ensures IsBlank(s[|r|..])
    ensures r == [] || !IsWs(r[|r| - 1])
  {
    if s == [] || !IsWs(s[|s| - 1]) then s
    else
      var r := TrimEnd(s[..|s| - 1]);
      assert s[|r|..] == s[..|s| - 1][|r|..] + [s[|s| - 1]];
      r
  }

  /** `String.Trim()`: s without its leading and trailing whitespace. */
  function Trim(s: string): (r: string)
    ensures exists lo :: 0 <= lo <= lo + |r| <= |s| && r == s[lo..lo + |r|]
                         && IsBlank(s[..lo]) && IsBlank(s[lo + |r|..])
    ensures r == [] || (!IsWs(r[0]) && !IsWs(r[|r| - 1]))
  {
    var lo := SkipWs(s, 0);
    var u := s[lo..];
    var r := TrimEnd(u);
    assert r == s[lo..lo + |r|];
    assert IsBlank(s[..lo]) by {
      forall j | 0 <= j < lo ensures IsWs(s[..lo][j]) { assert s[..lo][j] == s[j]; }
    }
    assert s[lo + |r|..] == u[|r|..];
    assert r != [] ==> r[0] == s[lo];
    r
  }

  /** A piece of text that, once trimmed, is `GO` in any casing. */
  predicate IsGoText(s: string) {
    var r := Trim(s);
    |r| == 2 && IsG(r[0]) && IsO(r[1])
  }

  /** Whitespace, then G and O at k, then whitespace: the text is a GO separator. */
  lemma GoTextFromShape(s: string, k: nat)
    requires k + 2 <= |s| && IsG(s[k]) && IsO(s[k + 1])
    requires AllWs(s, 0, k) && AllWs(s, k + 2, |s|)
    ensures IsGoText(s)
  {
    SkipWsStopsAt(s, 0, k);
    var u := s[k..];
    var r := TrimEnd(u);
    assert forall j :: |r| <= j < |u| ==> IsWs(u[j]) by {
      forall j | |r| <= j < |u| ensures IsWs(u[j]) { assert u[j] == u[|r|..][j - |r|]; }
    }
    assert !IsWs(u[1]);
    assert forall j :: 2 <= j < |u| ==> IsWs(u[j]) by {
      forall j | 2 <= j < |u| ensures IsWs(u[j]) { assert u[j] == s[k + j]; }
    }
    assert !IsWs(u[|r| - 1]) by { assert r[|r| - 1] == u[|r| - 1]; }
    assert |r| == 2;
    assert Trim(s) == r;
  }

  /** Conversely, a GO separator is whitespace, then G and O at its first non-blank index,
      then whitespace. */
  lemma GoTextShape(s: string)
    requires IsGoText(s)
    ensures var k := SkipWs(s, 0);
            k + 2 <= |s| && IsG(s[k]) && IsO(s[k + 1])
            && AllWs(s, 0, k) && AllWs(s, k + 2, |s|)
  {
    var k := SkipWs(s, 0);
    var u := s[k..];
    var r := TrimEnd(u);
    assert |r| == 2 && IsG(r[0]) && IsO(r[1]) by { assert r == Trim(s); }
    assert |u| >= 2;
    assert r[0] == u[0] && r[1] == u[1];
    assert u[0] == s[k] && u[1] == s[k + 1];
    assert AllWs(s, k + 2, |s|) by {
      var rest := u[2..];
      assert IsBlank(rest);
      forall j | k + 2 <= j < |s|
        ensures IsWs(s[j])
      {
        assert s[j] == rest[j - k - 2];
      }
    }
  }

  /** Trimming to GO and the whitespace-GO-whitespace shape are the same thing. */
  lemma GoTextIff(s: string)
    ensures IsGoText(s) <==>
            var k := SkipWs(s, 0);
            k + 2 <= |s| && IsG(s[k]) && IsO(s[k + 1]) && AllWs(s, 0, k) && AllWs(s, k + 2, |s|)
  {
    var k := SkipWs(s, 0);
    if IsGoText(s) {
      GoTextShape(s);
    }
    if k + 2 <= |s| && IsG(s[k]) && IsO(s[k + 1]) && AllWs(s, 0, k) && AllWs(s, k + 2, |s|) {
      GoTextFromShape(s, k);
    }
  }

  /** GoTextFromShape for a slice of a longer text. */
  lemma GoTextOfSlice(t: string, a: nat, g: nat, b: nat)
    requires a <= g && g + 2 <= b <= |t|
    requires AllWs(t, a, g) && IsG(t[g]) && IsO(t[g + 1]) && AllWs(t, g + 2, b)
    ensures IsGoText(t[a..b])
  {
    var line := t[a..b];
    var k := g - a;
    assert k + 2 <= |line| && IsG(line[k]) && IsO(line[k + 1]) by {
      assert line[k] == t[g] && line[k + 1] == t[g + 1];
    }
    assert AllWs(line, 0, k) by {
      forall j | 0 <= j < k ensures IsWs(line[j]) {
        assert line[j] == t[a + j];
      }
    }
    assert AllWs(line, k + 2, |line|) by {
      forall j | k + 2 <= j < |line| ensures IsWs(line[j]) {
        assert line[j] == t[a + j];
      }
    }
    GoTextFromShape(line, k);
  }

  /** GoTextShape for a slice of a longer text. */
  lemma SliceOfGoText(t: string, a: nat, b: nat)
    requires a <= b <= |t| && IsGoText(t[a..b])
    ensures var g := a + SkipWs(t[a..b], 0);
            g + 2 <= b && AllWs(t, a, g) && IsG(t[g]) && IsO(t[g + 1]) && AllWs(t, g + 2, b)
  {
    var line := t[a..b];
    GoTextShape(line);
    var k := SkipWs(line, 0);
    assert t[a + k] == line[k] && t[a + k + 1] == line[k + 1];
    assert AllWs(t, a, a + k) by {
      forall j | a <= j < a + k ensures IsWs(t[j]) {
        assert t[j] == line[j - a];
      }
    }
    assert AllWs(t, a + k + 2, b) by {
      forall j | a + k + 2 <= j < b ensures IsWs(t[j]) {
        assert t[j] == line[j - a];
      }
    }
  }

  /** The start of the line holding position i: just after the previous line feed. */
  function LineStart(t: string, i: nat): (a: nat)
    requires i <= |t|
    ensures a <= i
    ensures a == 0 || t[a - 1] == '\n'
    ensures forall j :: a <= j < i ==> t[j] != '\n'
  {
    if i == 0 || t[i - 1] == '\n' then i else LineStart(t, i - 1)
  }

  /** The end of the line holding position i: its line feed, or the end of the text. */
  function LineEnd(t: string, i: nat): (b: nat)
    requires i <= |t|
    ensures i <= b <= |t|
    ensures b == |t| || t[b] == '\n'
    ensures forall j :: i <= j < b ==> t[j] != '\n'
    decreases |t| - i
  {
    if i == |t| || t[i] == '\n' then i else LineEnd(t, i + 1)
  }

  /** The text of the line holding position i, without its line feed. */
  function LineOf(t: string, i: nat): string
    requires i <= |t|
  {
    t[LineStart(t, i)..LineEnd(t, i)]
  }

  /** Position i lies on a line that is a batch separator. */
  predicate OnGoLine(t: string, i: nat)
    requires i <= |t|
  {
    IsGoText(LineOf(t, i))
  }

  /** The non-whitespace characters of s, in order. */
  function Strip(s: string): (r: string)
    ensures |r| <= |s|
    ensures forall j :: 0 <= j < |r| ==> !IsWs(r[j])
  {
    if s == [] then [] else (if IsWs(s[0]) then [] else [s[0]]) + Strip(s[1..])
  }

  /** Stripping distributes over concatenation. */
  lemma {:induction false} StripAppend(a: string, b: string)
    ensures Strip(a + b) == Strip(a) + Strip(b)
  {
    if a != [] {
      assert (a + b)[0] == a[0];
      assert (a + b)[1..] == a[1..] + b;
      StripAppend(a[1..], b);
    } else {
      assert a + b == b;
    }
  }

  /** A blank text has no non-whitespace characters. */
  lemma {:induction false} StripBlank(s: string)
    ensures IsBlank(s) <==> Strip(s) == []
  {
    if s != [] {
      StripBlank(s[1..]);
      if IsBlank(s) {
        assert IsBlank(s[1..]) by {
          forall j | 0 <= j < |s[1..]| ensures IsWs(s[1..][j]) { assert s[1..][j] == s[j + 1]; }
        }
      } else if Strip(s) == [] {
        assert IsWs(s[0]) && Strip(s[1..]) == [];
        forall j | 0 <= j < |s| ensures IsWs(s[j]) {
          if j > 0 { assert s[j] == s[1..][j - 1]; }
        }
        assert false;
      }
    }
  }

  /** The texts of ss joined end to end. */
  function Concat(ss: seq<string>): string
  {
    if ss == [] then [] else ss[0] + Concat(ss[1..])
  }
}
